=== FILE: README.md ===
# Testnet faucet: funding decision and audit log

A model of the funding core of a Sepolia testnet faucet. The faucet pays a
fixed amount to a requester's wallet. Under sequential use the giveaway app records
at most one SUCCESS per cooldown per wallet address (`Cooldown.Serve`); the
faucet app keys its lookup on wallet and IP, so a second IP can be paid again
within the cooldown; payouts that
are recorded FAILED, described below and under "## Left out", are not held to
that bound. It writes one audit record for every request past validation whose
store calls do not raise; a raising lookup, rejection write or error-handler
write escapes the view and leaves no record. The model covers the two
near-duplicate Django apps in the repository and the in-memory meaning of the
transaction repository they use:

- `app/faucet/views.py`: `FundView.post` split into helper methods, and `StatsView.get`;
- `app/giveaway/views.py`: the same flow inlined in `FundView.post`, and the same `StatsView.get`;
- `app/giveaway/data/repositories/transaction_repository.py`: the window queries,
  `get_last_tx` and `write`, over a store that is a sequence of records.

Module layout, following the source:

| file | module | models |
|---|---|---|
| `wrappers.dfy` | `Wrappers` | `Option` for Python's `Optional` |
| `transaction.dfy` | `Transactions` | the `Transaction` document and the closed `TransactionStatus` enum |
| `repository.dfy` | `TransactionRepository` | the repository queries and `write` |
| `ratelimiter.dfy` | `RateLimiter` | the cooldown decision (`_is_rate_limited`) |
| `funding.dfy` | `Funding` | one funding request: `post` and its helpers |
| `giveaway.dfy` | `Giveaway` | the giveaway's `post`, with the wallet-keyed `get_last_tx` |
| `faucet.dfy` | `Faucet` | the faucet's `post`, with its wallet-and-IP lookup |
| `stats.dfy` | `Stats` | `StatsView.get`, identical in both apps |
| `cooldown.dfy` | `Cooldown` | sequential use: payouts to one wallet are a cooldown apart |
| `scenarios.dfy` | `Scenarios` | concrete request sequences |

One funding request is a pure step `Funding.Post(settings, store, request, lastTx)`
returning the new store, the response and the hash of whatever was broadcast.
The response is `Invalid` (400), `RateLimited` (429), `Funded(id)` (200),
`FundingFailed(message)` (400), or `ServerError(message)` for an exception that
escapes the view (the framework answers 500). The request carries everything
the view gets from outside: the serializer's verdict, two clock readings (the
one the cooldown is checked against and the one stamped on the record), the
chain outcome (`Sent(hash)` or `Raised(message)`), and which store calls raise.
`lastTx` is what the rate-limit lookup returned. The giveaway supplies
`get_last_tx(wallet)`; the faucet supplies an arbitrary lookup of wallet and IP,
because its repository is not part of this model.

Behaviour of the code worth knowing, which the model follows:

- When the success record cannot be written after a payout was broadcast, the
  code catches that exception in the same handler as a chain error. It answers
  400 and records a FAILED attempt, although the payout went out
  (`Funding.BroadcastPayoutReportedFailed`). Since FAILED records do not arm
  the cooldown, a second payout to the same wallet can then follow at once
  (`Scenarios.LostSuccessRecordAllowsSecondPayout`).
- The serializer (`app/faucet/serializers.py:5`) only asks for a present,
  non-blank string of at most 42 characters. Only a missing, blank or
  over-long address gets the 400 for invalid data with no record. Any other
  malformed address, such as `"hello"`, reaches signing and broadcasting; when
  web3 rejects it, the error handler writes a FAILED record and answers 400
  with "Transaction failed: " and the message. The model covers this through
  the chain outcome `Raised(message)`.
- A successful response carries only the transaction id, not the amount.
- The stats view runs two queries, each with its own `datetime.now()`. The two
  counts can therefore cover slightly different windows. `Stats.Get` takes both
  readings.
- Store exceptions outside the `try` blocks are not handled by the view. This
  covers the last-transaction lookup, the rejection write and the write inside
  the error handler. They are modelled as `ServerError`, and no record is written.

## Model

| member | source | states |
|---|---|---|
| TransactionRepository.TxsBetween | app/giveaway/data/repositories/transaction_repository.py:18-36 | a record is returned iff it is in the store, `start <= created_at <= end` (both bounds inclusive), and, when a status is given, it has that status |
| TransactionRepository.TxsBetweenCountsMatches | app/giveaway/data/repositories/transaction_repository.py:24-36 | the number of records returned equals the number of store positions meeting the query condition |
| TransactionRepository.TxsBetweenMultiplicity | app/giveaway/data/repositories/transaction_repository.py:24-36 | no record is lost or duplicated: a matching record occurs in the result exactly as often as in the store, any other record not at all |
| TransactionRepository.StatusFilterRefines | app/giveaway/data/repositories/transaction_repository.py:28-29 | the status condition only narrows the unfiltered window; without a status nothing is filtered by status |
| TransactionRepository.WindowPartition | app/giveaway/data/repositories/transaction_repository.py:24-29 | in any window, SUCCESS count plus FAILED count equals the count of all records, because the status has exactly two values |
| TransactionRepository.AppendOutsideWindow | app/giveaway/data/repositories/transaction_repository.py:24-27 | a record outside the window (or of another status) does not change a window query's answer |
| TransactionRepository.TxsLast24Hours | app/giveaway/data/repositories/transaction_repository.py:38-44 | returns exactly the records created in `[now - 86400 s, now]`, optionally of one status |
| TransactionRepository.GetLastTx | app/giveaway/data/repositories/transaction_repository.py:46-58 | None iff the wallet has no SUCCESS record; otherwise a SUCCESS record of that wallet from the store with the greatest `created_at` |
| TransactionRepository.FailuresDoNotMoveLastTx | app/giveaway/data/repositories/transaction_repository.py:46-50 | appending any sequence of FAILED records, rate-limit rejections included, never changes `get_last_tx` |
| TransactionRepository.Write | app/giveaway/data/repositories/transaction_repository.py:60-64 | a write appends exactly the one record and leaves every earlier record in place; a database error is re-raised, and the failed insert is modelled as writing nothing |
| RateLimiter.IsRateLimited | app/faucet/views.py:56-62 | only a record found can limit a wallet, and a found record limits it until exactly one cooldown after its `created_at` |
| RateLimiter.NothingFoundNeverLimited | app/faucet/views.py:56-62 | when the lookup returns nothing the request is never rate-limited, whatever the clock and cooldown |
| RateLimiter.CooldownBoundary | app/faucet/views.py:59-61 | the comparison is strict: elapsed time equal to the cooldown is not limited, one second less is |
| RateLimiter.ExpiryIsPermanent | app/faucet/views.py:59-61 | for a fixed last record, once not limited a wallet stays unlimited as the clock advances |
| RateLimiter.JustPaidIsLimited | app/faucet/views.py:59-61 | with a positive cooldown, a record created at `now` limits the wallet |
| Funding.CreateTransaction | app/faucet/views.py:112-128 | the record carries the caller's wallet, IP, status, amount and id and the clock reading; it satisfies the record invariant exactly when an id and a positive amount are given for a success and neither for a failure |
| Funding.CreatedRecordsWellFormed | app/faucet/views.py:112-128 | the failure record always satisfies "id present iff SUCCESS, amount > 0 iff SUCCESS"; the success record satisfies it iff `GIVEAWAY_VALUE > 0` |
| Funding.RateLimitExceeded | app/faucet/views.py:64-77 | appends exactly one FAILED record with amount 0, no id, the request's wallet, IP and time, and answers 429 without a broadcast; if that write raises, nothing is written and the exception escapes |
| Funding.ProcessFunding | app/faucet/views.py:79-93 | on a broadcast with a successful write, appends one SUCCESS record with amount `GIVEAWAY_VALUE` and id equal to the hash and answers 200 with that id; any exception (chain, or the success write) appends one FAILED record and answers 400 with the message, unless that failure write raises, which escapes as a 500 with nothing written; a broadcast happens exactly when the chain returned a hash |
| Funding.HandleFundingError | app/faucet/views.py:130-143 | appends one FAILED record (amount 0, no id) and answers 400 with "Transaction failed: " and the message; if that write raises, nothing is written and the exception escapes |
| Funding.Post | app/faucet/views.py:31-93 | invalid payload iff 400 without message, store unchanged, no broadcast; for an admitted request (valid, lookup did not raise): 429 iff rate-limited and the rejection write succeeds; broadcast iff not rate-limited and the chain returned a hash, and what went out is that hash; 200 iff not rate-limited, the hash was returned and the success record written, with the hash as id; 400 with "Transaction failed: " and the caught message iff not rate-limited, the payout did not go through cleanly and the failure record was written; an escaping exception carries the raising store call's message; one record per request past validation unless an exception escapes; the record is SUCCESS iff the answer is 200; every record written is well-formed when `GIVEAWAY_VALUE > 0` |
| Funding.BroadcastPayoutReportedFailed | app/faucet/views.py:80-93 | a payout that was broadcast but whose success record failed to write is answered with 400 and recorded as FAILED |
| Faucet.Fund | app/faucet/views.py:31-93 | relative to whatever record the wallet-and-IP lookup returns: 400 without message iff the payload is invalid, and then nothing is written or sent; an escaping exception writes nothing; 429 iff that record exists and is strictly younger than the cooldown and the rejection is recorded; broadcast iff not limited and the chain returned a hash; 200 iff that payout was also recorded, with the hash as id and the matching SUCCESS record; 400 with the caught message and a FAILED record iff not limited and the payout failed; records carry the request's wallet and IP |
| Giveaway.Fund | app/giveaway/views.py:28-128 | 400 without message iff the payload is invalid, store unchanged; an escaping exception writes nothing; for an admitted request, 429 iff some SUCCESS record of the wallet is younger than the cooldown and the rejection is recorded; broadcast iff there is none and the chain returned a hash, every earlier success then being at least a cooldown old; 200 iff that payout was also recorded, the id being the chain's hash; 400 with "Transaction failed: " and the caught message iff not limited, the payout failed and the FAILED record was written; a 429 broadcasts nothing |
| Giveaway.RateLimitedIffRecentSuccess | app/giveaway/views.py:40-46 | the decision on `get_last_tx`'s answer equals "some SUCCESS record of the wallet is younger than the cooldown", over the whole store |
| Giveaway.RepeatWithinCooldownIsLimited | app/giveaway/views.py:40-66 | right after a 200, a further request for the same wallet within the cooldown is answered 429 and broadcasts nothing |
| Cooldown.GetLastTxCoversWallet | app/giveaway/data/repositories/transaction_repository.py:46-58 | `get_last_tx` returns a record at least as recent as every success of the wallet, and returns nothing only when there is none |
| Cooldown.PostKeepsSpacing | app/giveaway/views.py:40-96 | for any lookup that covers the wallet, one request keeps SUCCESS records of each wallet at least a cooldown apart, provided the clock does not run backwards |
| Cooldown.Serve | app/giveaway/views.py:28-128 | the log and the answers are exactly those of handling each request in turn on the log the previous ones left (`Cooldown.Run`); with a non-decreasing clock, successes of one wallet stay a cooldown apart, earlier records are kept, the log grows by exactly as many records as there are 429, 400-with-message and 200 answers, and gains exactly as many SUCCESS records as there are 200 answers |
| Stats.Get | app/giveaway/views.py:131-148 | `num_success` and `num_failed` are the numbers of SUCCESS and FAILED records created in the trailing day of each query's clock reading; the answer is 200 with the counts, or 500 exactly when a query raised: a store error gives a 500 with "Unable to fetch stats: " and the message, and no counts |
| Stats.CountsCoverTheDay | app/faucet/views.py:146-153 | read at one instant, the two counts add up to every attempt of the trailing day |
| Stats.CountsIgnoreOutsideWindow | app/giveaway/data/repositories/transaction_repository.py:38-44 | an attempt older than a day, or newer than the query, does not change the counts |
| Scenarios.FreshWalletFunded | app/giveaway/views.py:85-101 | a fresh wallet is funded with the returned hash and exactly that SUCCESS record is written |
| Scenarios.RepeatOneSecondLaterLimited | app/giveaway/views.py:40-66 | one second after a payout (cooldown one hour) the same wallet gets 429, one more FAILED record and no broadcast |
| Scenarios.ChainErrorRecorded | app/giveaway/views.py:102-122 | a raising chain client gives a 400 carrying the message and one FAILED record |
| Scenarios.LostSuccessRecordAllowsSecondPayout | app/giveaway/views.py:85-112 | two payouts reach one wallet one second apart when the first payout's success record failed to write |
| Scenarios.StatsIgnoreOlderThanADay | app/giveaway/views.py:131-142 | three successes and two failures in the last day, plus a success 25 hours old, are reported as 3 and 2 |

## Left out

- Chain interaction (`_create_and_send_transaction`, and its inlined copy in the
  giveaway): the checksum address, the pending nonce, gas, signing and
  broadcasting belong to web3. The chain is the input `Sent(hash) | Raised(message)`,
  with the hash already hex-encoded.
- The Mongo client, query construction and the wrapping of `PyMongoError`: the
  store is a sequence of records. Whether a store call raises is an input of
  the request, or of the stats call.
- Django/DRF: routing, request and response objects, and `REMOTE_ADDR`. The
  IP address is a request field. The `FundSerializer` verdict (a `CharField`
  of at most 42 characters) is the opaque input `serializerValid`. The error
  text of the 400 for an invalid payload and the body of a framework 500 are
  not modelled.
- Logging: it has no effect on behaviour.
- Concurrent requests: the model is sequential. Two concurrent requests for one
  wallet can both pass the rate-limit check; this model does not cover that.
- Floats and wall-clock time: timestamps are integer seconds and amounts
  integers. `GIVEAWAY_VALUE` and `FUNDING_COOLDOWN` are the `Settings` fields.
  The clock is two readings per request, not an ambient `datetime.now()`.
- The faucet's repository (`app/faucet/data/repositories/transaction_repository.py`)
  is not part of this model. Its wallet-and-IP `get_last_tx` is the arbitrary
  function `Faucet.Lookup`. The cooldown guarantee is proved for the faucet
  only for lookups that cover the wallet (`Cooldown.PostKeepsSpacing`).
- The faucet's `StatsView.get` calls the faucet's own repository, which is not
  part of this model. `Stats.Get` gives it the giveaway repository's window
  semantics (`[now - 1 day, now]`, both bounds inclusive); that is an assumption
  for the faucet.
- A broadcast that raised: `broadcast` records a hash only when the chain
  client returned one. A `Raised` outcome from `send_raw_transaction` (for
  instance an RPC timeout after the node accepted the transaction) may still
  have paid out. The model treats it as no payout. Like the lost success
  record, such a payout is recorded FAILED and does not arm the cooldown.
- TransactionRepository.Write: an insert that raises is taken to have stored
  nothing. `insert_one` can raise after the server stored the document (a
  write-concern error, or a network error after the insert was applied). In the
  program such a success write leaves a SUCCESS and a FAILED record and answers
  400, so "one record per request" and "the record is SUCCESS iff 200" in
  `Funding.Post`, and the record count of `Cooldown.Serve`, do not cover that case.
- TransactionRepository.GetLastTx: among SUCCESS records of the wallet with equal
  `created_at`, Mongo may return any of them; the model returns the last inserted.
  The contract states only the maximality the database guarantees.

=== FILE: cooldown.dfy ===
/**
 The cooldown guarantee under sequential use: when requests are handled one
 after another and the clock never runs backwards, two successful payouts to
 the same wallet are always recorded at least one cooldown apart.
 */
module Cooldown {
  import opened Wrappers
  import opened Transactions
  import opened TransactionRepository
  import opened Funding
  import Giveaway

  /** Any two success records of one wallet, in store order, are at least
      `cooldown` apart. */
  ghost predicate SuccessesSpaced(store: Store, cooldown: int) {
    forall i, j :: 0 <= i < j < |store| && store[i].status == Success && IsSuccessFor(store[j], store[i].walletAddress) ==>
      store[i].createdAt + cooldown <= store[j].createdAt
  }

  /** Every record was created no later than `now`. */
  ghost predicate NotAfter(store: Store, now: int) {
    forall i :: 0 <= i < |store| ==> store[i].createdAt <= now
  }

  /** `lastTx` is at least as recent as every success of `wallet` in the store,
      and is absent only when there is none: what a wallet-keyed lookup
      returning the most recent success provides. */
  ghost predicate CoversWallet(store: Store, wallet: string, lastTx: Option<Transaction>) {
    && (lastTx.None? ==> forall i :: 0 <= i < |store| ==> !IsSuccessFor(store[i], wallet))
    && (lastTx.Some? ==> forall i :: 0 <= i < |store| && IsSuccessFor(store[i], wallet) ==> store[i].createdAt <= lastTx.value.createdAt)
  }

  /** One request keeps the payouts spaced, for any lookup that covers the
      wallet, as long as it is checked after every earlier record was made and
      its record is stamped no earlier than the check. */
  lemma PostKeepsSpacing(settings: Settings, store: Store, req: Request, lastTx: Option<Transaction>)
    requires CoversWallet(store, req.walletAddress, lastTx)
    requires SuccessesSpaced(store, settings.fundingCooldown)
    requires NotAfter(store, req.clock.checkedAt)
    requires req.clock.checkedAt <= req.clock.recordedAt
    ensures SuccessesSpaced(Post(settings, store, req, lastTx).store, settings.fundingCooldown)
    ensures NotAfter(Post(settings, store, req, lastTx).store, req.clock.recordedAt)
  {
    var s := Post(settings, store, req, lastTx);
    var n := |store|;
    if |s.store| != n {
      assert GrowsByOne(store, s.store);
      assert forall i :: 0 <= i < n ==> s.store[i] == store[i];
      var t := s.store[n];
      if t.status == Success {
        forall i | 0 <= i < n && s.store[i].status == Success && IsSuccessFor(t, s.store[i].walletAddress)
          ensures s.store[i].createdAt + settings.fundingCooldown <= t.createdAt
        {
          assert IsSuccessFor(store[i], req.walletAddress);
        }
      }
    }
  }

  /** The giveaway's own lookup covers the wallet. */
  lemma GetLastTxCoversWallet(store: Store, wallet: string)
    ensures CoversWallet(store, wallet, GetLastTx(store, wallet))
  {
    assert forall i :: 0 <= i < |store| ==> store[i] in store;
  }

  /** The requests arrive in order after everything already in the store: each
      is checked no later than its record is stamped, and no earlier than the
      previous record was stamped; the first is checked after every record of
      `store0` was made. */
  ghost predicate ClocksOrdered(store0: Store, reqs: seq<Request>) {
    && (forall k :: 0 <= k < |reqs| ==> reqs[k].clock.checkedAt <= reqs[k].clock.recordedAt)
    && (forall k :: 0 < k < |reqs| ==> reqs[k - 1].clock.recordedAt <= reqs[k].clock.checkedAt)
    && (|reqs| > 0 ==> NotAfter(store0, reqs[0].clock.checkedAt))
  }

  /** An answer that leaves a record behind: all but an invalid payload and an
      escaped exception. */
  predicate IsRecorded(r: Response) {
    !r.Invalid? && !r.ServerError?
  }

  /** The positions of the recorded answers. */
  ghost function RecordedAnswers(answers: seq<Response>): set<int> {
    set k | 0 <= k < |answers| && IsRecorded(answers[k])
  }

  /** The positions of the 200 answers. */
  ghost function FundedAnswers(answers: seq<Response>): set<int> {
    set k | 0 <= k < |answers| && answers[k].Funded?
  }

  /** The positions of success records at or after position `from`. */
  ghost function SuccessesFrom(log: Store, from: int): set<int> {
    set i | 0 <= i < |log| && from <= i && log[i].status == Success
  }

  lemma RecordedAnswersSnoc(answers: seq<Response>, r: Response)
    ensures RecordedAnswers(answers + [r]) == RecordedAnswers(answers) + (if IsRecorded(r) then {|answers|} else {})
  {
    assert forall k :: 0 <= k < |answers| ==> (answers + [r])[k] == answers[k];
  }

  lemma FundedAnswersSnoc(answers: seq<Response>, r: Response)
    ensures FundedAnswers(answers + [r]) == FundedAnswers(answers) + (if r.Funded? then {|answers|} else {})
  {
    assert forall k :: 0 <= k < |answers| ==> (answers + [r])[k] == answers[k];
  }

  lemma AnswersSnoc(answers: seq<Response>, r: Response)
    ensures |RecordedAnswers(answers + [r])| == |RecordedAnswers(answers)| + (if IsRecorded(r) then 1 else 0)
    ensures |FundedAnswers(answers + [r])| == |FundedAnswers(answers)| + (if r.Funded? then 1 else 0)
  {
    RecordedAnswersSnoc(answers, r);
    FundedAnswersSnoc(answers, r);
    assert |answers| !in RecordedAnswers(answers);
    assert |answers| !in FundedAnswers(answers);
  }

  lemma SuccessesSnoc(log: Store, t: Transaction, from: int)
    requires 0 <= from <= |log|
    ensures |SuccessesFrom(log + [t], from)| == |SuccessesFrom(log, from)| + (if t.status == Success then 1 else 0)
  {
    var n := |log|;
    var grown := log + [t];
    assert forall i :: 0 <= i < n ==> grown[i] == log[i];
    assert SuccessesFrom(grown, from) == SuccessesFrom(log, from) + (if t.status == Success then {n} else {});
    assert n !in SuccessesFrom(log, from);
  }

  /** One giveaway request adds a record exactly when its answer is recorded,
      and a success record exactly when it answers 200. */
  lemma FundAccounting(settings: Settings, store: Store, req: Request, from: int)
    requires 0 <= from <= |store|
    ensures var s := Giveaway.Fund(settings, store, req);
      && |store| <= |s.store| && s.store[..|store|] == store
      && |s.store| == |store| + (if IsRecorded(s.response) then 1 else 0)
      && |SuccessesFrom(s.store, from)| == |SuccessesFrom(store, from)| + (if s.response.Funded? then 1 else 0)
  {
    var s := Giveaway.Fund(settings, store, req);
    if |s.store| != |store| {
      assert GrowsByOne(store, s.store);
      assert s.store == store + [s.store[|store|]];
      SuccessesSnoc(store, s.store[|store|], from);
    }
  }

  /** The audit log and the answers after a sequence of requests. */
  datatype Trace = Trace(log: Store, answers: seq<Response>)

  /** The giveaway's `FundView.post` applied to `reqs` in order, each request
      seeing the log its predecessors left behind (reference definition). */
  function Run(settings: Settings, store: Store, reqs: seq<Request>): (t: Trace)
    ensures |t.answers| == |reqs|
    decreases |reqs|
  {
    if |reqs| == 0 then Trace(store, [])
    else
      var n := |reqs| - 1;
      var before := Run(settings, store, reqs[..n]);
      var s := Giveaway.Fund(settings, before.log, reqs[n]);
      Trace(s.store, before.answers + [s.response])
  }

  /** The giveaway serving `reqs` one after another: the log and the answers
      are those of handling each request in turn on the log left by the
      previous ones. Besides the cooldown guarantee, the audit log grows by
      exactly one record per recorded answer, and by exactly one success per
      payout reported. */
  method Serve(settings: Settings, store0: Store, reqs: seq<Request>) returns (log: Store, answers: seq<Response>)
    requires SuccessesSpaced(store0, settings.fundingCooldown)
    requires ClocksOrdered(store0, reqs)
    ensures Trace(log, answers) == Run(settings, store0, reqs)
    ensures |store0| <= |log| && log[..|store0|] == store0
    ensures |log| == |store0| + |RecordedAnswers(answers)|
    ensures |SuccessesFrom(log, |store0|)| == |FundedAnswers(answers)|
    ensures SuccessesSpaced(log, settings.fundingCooldown)
  {
    log := store0;
    answers := [];
    ghost var bound := if |reqs| > 0 then reqs[0].clock.checkedAt else 0;
    for k := 0 to |reqs|
      invariant |answers| == k
      invariant Trace(log, answers) == Run(settings, store0, reqs[..k])
      invariant |store0| <= |log| && log[..|store0|] == store0
      invariant |log| == |store0| + |RecordedAnswers(answers)|
      invariant |SuccessesFrom(log, |store0|)| == |FundedAnswers(answers)|
      invariant SuccessesSpaced(log, settings.fundingCooldown)
      invariant k < |reqs| ==> NotAfter(log, bound) && bound <= reqs[k].clock.checkedAt
    {
      var req := reqs[k];
      assert reqs[..k + 1][..k] == reqs[..k];
      GetLastTxCoversWallet(log, req.walletAddress);
      PostKeepsSpacing(settings, log, req, GetLastTx(log, req.walletAddress));
      FundAccounting(settings, log, req, |store0|);
      var step := Giveaway.Fund(settings, log, req);
      AnswersSnoc(answers, step.response);
      assert step.store[..|store0|] == log[..|store0|];
      log := step.store;
      answers := answers + [step.response];
      bound := req.clock.recordedAt;
      assert NotAfter(log, bound);
    }
    assert reqs[..|reqs|] == reqs;
  }
}

=== FILE: faucet.dfy ===
/**
 The faucet app (app/faucet/views.py): the same flow split into helper methods,
 but its lookup is keyed on wallet and IP together, through a repository that is
 not part of this model. The lookup is therefore an arbitrary function of the
 store, and the faucet's properties hold relative to whatever it returns.
 */
module Faucet {
  import opened Wrappers
  import opened Transactions
  import opened TransactionRepository
  import opened Funding

  /** `get_last_tx(wallet_address, ip_address)` of the faucet's repository. */
  type Lookup = (Store, string, string) -> Option<Transaction>

  /** The lookup found a record for this wallet and IP that is strictly
      younger than the cooldown. */
  predicate FoundRecent(settings: Settings, store: Store, req: Request, lookup: Lookup) {
    var last := lookup(store, req.walletAddress, req.ipAddress);
    last.Some? && req.clock.checkedAt - last.value.createdAt < settings.fundingCooldown
  }

  /** `FundView.post` of the faucet. */
  function Fund(settings: Settings, store: Store, req: Request, lookup: Lookup): (s: Step)
    // an invalid payload: 400, nothing written, nothing sent
    ensures !req.serializerValid ==> s == Step(store, Invalid, None)
    ensures s.response.Invalid? <==> !req.serializerValid
    // an escaping exception leaves the store as it was
    ensures s.response.ServerError? ==> s.store == store
    // `_is_rate_limited`: nothing found means never limited
    ensures lookup(store, req.walletAddress, req.ipAddress).None? ==> s.response != RateLimited
    // 429 exactly when the record found is strictly younger than the cooldown
    // and the rejection is recorded
    ensures s.response == RateLimited <==>
      && Admitted(req) && req.faults.failureWriteError.None?
      && FoundRecent(settings, store, req, lookup)
    ensures s.response == RateLimited ==> s.broadcast.None? && AppendsRejection(store, s.store, req)
    // paid out exactly when the request is not limited and the chain returned a hash
    ensures s.broadcast.Some? <==>
      Admitted(req) && req.chain.Sent? && !FoundRecent(settings, store, req, lookup)
    ensures s.broadcast.Some? ==>
      var last := lookup(store, req.walletAddress, req.ipAddress);
      last.Some? ==> last.value.createdAt + settings.fundingCooldown <= req.clock.checkedAt
    // 200 exactly when that payout was also recorded, with the chain's hash as id
    ensures s.response.Funded? <==>
      Admitted(req) && PaidAndRecorded(req) && !FoundRecent(settings, store, req, lookup)
    ensures s.response.Funded? ==>
      s.response.transactionId == req.chain.hash && AppendsPayout(store, s.store, settings, req, req.chain.hash)
    // any exception while paying out: 400 with its message, and a failure record
    ensures s.response.FundingFailed? <==>
      && Admitted(req) && !PaidAndRecorded(req) && req.faults.failureWriteError.None?
      && !FoundRecent(settings, store, req, lookup)
    ensures s.response.FundingFailed? ==>
      s.response.error == FailurePrefix + CaughtMessage(req) && AppendsRejection(store, s.store, req)
    // every record it writes names the requesting wallet and IP
    ensures |s.store| > |store| ==>
      s.store[|store|].walletAddress == req.walletAddress && s.store[|store|].ipAddress == req.ipAddress
  {
    Post(settings, store, req, lookup(store, req.walletAddress, req.ipAddress))
  }
}

=== FILE: funding.dfy ===
/**
 One funding request, as handled by `FundView.post` (app/faucet/views.py, and the
 inlined copy in app/giveaway/views.py).

 Everything the view learns from the outside world is an input of the step:
 whether the serializer accepted the payload, the two clock readings, what the
 chain client did (broadcast a transaction or raised), and which store calls
 raised. The record the store lookup returned is an input too, so the same
 step serves both apps: the giveaway passes `get_last_tx(wallet)`, the faucet
 its own wallet-and-IP lookup.
 */
module Funding {
  import opened Wrappers
  import opened Transactions
  import opened TransactionRepository
  import opened RateLimiter

  /** `FUNDING_COOLDOWN` (seconds) and `GIVEAWAY_VALUE` from the settings. */
  datatype Settings = Settings(fundingCooldown: int, giveawayValue: int)

  /** What signing and broadcasting did: returned a transaction hash (already
      hex-encoded) or raised with a message. */
  datatype ChainOutcome = Sent(hash: string) | Raised(message: string)

  /** The two `datetime.now()` readings of a request: the one the rate-limit
      check compares against, and the one stamped on the record written. */
  datatype Clock = Clock(checkedAt: int, recordedAt: int)

  /** Which store calls raise: the last-transaction lookup, the write of the
      success record, and the write of a failure record. */
  datatype StoreFaults = StoreFaults(
    lookupError: Option<string>,
    successWriteError: Option<string>,
    failureWriteError: Option<string>
  )

  datatype Request = Request(
    walletAddress: string,
    ipAddress: string,
    serializerValid: bool,
    clock: Clock,
    chain: ChainOutcome,
    faults: StoreFaults
  )

  /** The view's answers; `ServerError` is an exception that escapes the view
      (the framework turns it into HTTP 500). */
  datatype Response =
    | Invalid
    | RateLimited
    | Funded(transactionId: string)
    | FundingFailed(error: string)
    | ServerError(message: string)

  /** The store after the request, the answer, and the hash of the payout the
      request broadcast on chain, if it got that far. */
  datatype Step = Step(store: Store, response: Response, broadcast: Option<string>)

  const FailurePrefix: string := "Transaction failed: "

  function StatusCode(r: Response): (code: int)
    ensures code == 200 <==> r.Funded?
    ensures code == 429 <==> r.RateLimited?
    ensures code == 400 <==> r.Invalid? || r.FundingFailed?
    ensures code == 500 <==> r.ServerError?
  {
    match r
    case Invalid => 400
    case RateLimited => 429
    case Funded(_) => 200
    case FundingFailed(_) => 400
    case ServerError(_) => 500
  }

  // ---------------------------------------------------------------------------
  // Records

  /** `_create_transaction`: a record of the attempt by `wallet` from `ip`,
      stamped with the clock reading `at`. */
  function CreateTransaction(wallet: string, status: Status, ip: string, amount: int, hash: Option<string>, at: int): (t: Transaction)
    ensures t.walletAddress == wallet && t.ipAddress == ip && t.createdAt == at
    ensures t.status == status && t.amount == amount && t.transactionId == hash
    // the record invariant holds exactly when the caller passes an id and a
    // positive amount for a success, and neither for a failure
    ensures WellFormed(t) <==> (hash.Some? <==> status == Success) && (amount > 0 <==> status == Success) && amount >= 0
  {
    Transaction(wallet, hash, amount, status, ip, at)
  }

  /** The failure record written for a rejection or a failed payout. */
  function RejectionRecord(req: Request): Transaction {
    CreateTransaction(req.walletAddress, Failed, req.ipAddress, 0, None, req.clock.recordedAt)
  }

  /** The success record written after a broadcast. */
  function PayoutRecord(settings: Settings, req: Request, hash: string): Transaction {
    CreateTransaction(req.walletAddress, Success, req.ipAddress, settings.giveawayValue, Some(hash), req.clock.recordedAt)
  }

  predicate IsRejectionOf(t: Transaction, req: Request) {
    && t.walletAddress == req.walletAddress
    && t.ipAddress == req.ipAddress
    && t.status == Failed
    && t.amount == 0
    && t.transactionId == None
    && t.createdAt == req.clock.recordedAt
  }

  predicate IsPayoutOf(t: Transaction, settings: Settings, req: Request, hash: string) {
    && t.walletAddress == req.walletAddress
    && t.ipAddress == req.ipAddress
    && t.status == Success
    && t.amount == settings.giveawayValue
    && t.transactionId == Some(hash)
    && t.createdAt == req.clock.recordedAt
  }

  /** `after` is `before` with exactly one record added at the end. */
  predicate GrowsByOne(before: Store, after: Store) {
    |after| == |before| + 1 && after[..|before|] == before
  }

  predicate AppendsRejection(before: Store, after: Store, req: Request) {
    GrowsByOne(before, after) && IsRejectionOf(after[|before|], req)
  }

  predicate AppendsPayout(before: Store, after: Store, settings: Settings, req: Request, hash: string) {
    GrowsByOne(before, after) && IsPayoutOf(after[|before|], settings, req, hash)
  }

  /** Every record the view builds keeps the record invariant, provided the
      configured payout is positive; with a non-positive payout the success
      record would break it. */
  lemma CreatedRecordsWellFormed(settings: Settings, req: Request, hash: string)
    ensures WellFormed(RejectionRecord(req))
    ensures WellFormed(PayoutRecord(settings, req, hash)) <==> settings.giveawayValue > 0
  {
  }

  // ---------------------------------------------------------------------------
  // The branches of the view

  /** The request passed the serializer and the rate-limit lookup did not raise. */
  predicate Admitted(req: Request) {
    req.serializerValid && req.faults.lookupError.None?
  }

  /** The chain returned a hash and the success record was written. */
  predicate PaidAndRecorded(req: Request) {
    req.chain.Sent? && req.faults.successWriteError.None?
  }

  /** The message of the exception `_process_funding` catches when the payout
      did not go through cleanly: the chain's, or else the success write's. */
  function CaughtMessage(req: Request): string
    requires !PaidAndRecorded(req)
  {
    if req.chain.Raised? then req.chain.message else req.faults.successWriteError.value
  }

  /** `_rate_limit_exceeded`: record the rejection and answer 429. The chain is
      never involved. */
  function RateLimitExceeded(store: Store, req: Request): (s: Step)
    ensures s.broadcast.None?
    ensures req.faults.failureWriteError.None? ==>
      s.response == RateLimited && AppendsRejection(store, s.store, req)
    ensures req.faults.failureWriteError.Some? ==>
      s.store == store && s.response == ServerError(req.faults.failureWriteError.value)
  {
    match Write(store, RejectionRecord(req), req.faults.failureWriteError)
    case Written(after) => Step(after, RateLimited, None)
    case WriteRaised(e) => Step(store, ServerError(e), None)
  }

  /** `_handle_funding_error`: record a failure and answer 400 with the
      exception's message. `broadcast` is whatever already went out on chain. */
  function HandleFundingError(store: Store, req: Request, error: string, broadcast: Option<string>): (s: Step)
    ensures s.broadcast == broadcast
    ensures req.faults.failureWriteError.None? ==>
      s.response == FundingFailed(FailurePrefix + error) && AppendsRejection(store, s.store, req)
    ensures req.faults.failureWriteError.Some? ==>
      s.store == store && s.response == ServerError(req.faults.failureWriteError.value)
  {
    match Write(store, RejectionRecord(req), req.faults.failureWriteError)
    case Written(after) => Step(after, FundingFailed(FailurePrefix + error), broadcast)
    case WriteRaised(e) => Step(store, ServerError(e), broadcast)
  }

  /** `_process_funding`: broadcast, then record the success; any exception in
      between (the chain raising, or the success write raising after the
      broadcast) ends in the error handler instead. */
  function ProcessFunding(settings: Settings, store: Store, req: Request): (s: Step)
    ensures s.broadcast == (if req.chain.Sent? then Some(req.chain.hash) else None)
    ensures s.response.Funded? <==> req.chain.Sent? && req.faults.successWriteError.None?
    ensures s.response.Funded? ==>
      && s.response.transactionId == req.chain.hash
      && AppendsPayout(store, s.store, settings, req, req.chain.hash)
    ensures s.response.FundingFailed? ==>
      && s.response.error == FailurePrefix + CaughtMessage(req)
      && AppendsRejection(store, s.store, req)
    ensures s.response.Funded? || s.response.FundingFailed? || s.response.ServerError?
    ensures s.response.ServerError? <==> !s.response.Funded? && req.faults.failureWriteError.Some?
    ensures s.response.ServerError? ==> s.store == store
  {
    match req.chain
    case Raised(e) => HandleFundingError(store, req, e, None)
    case Sent(hash) =>
      match Write(store, PayoutRecord(settings, req, hash), req.faults.successWriteError)
      case Written(after) => Step(after, Funded(hash), Some(hash))
      case WriteRaised(e) => HandleFundingError(store, req, e, Some(hash))
  }

  /** `FundView.post` given the record the lookup returned (`lastTx`). */
  function Post(settings: Settings, store: Store, req: Request, lastTx: Option<Transaction>): (s: Step)
    // an invalid payload: 400, nothing written, nothing sent
    ensures !req.serializerValid ==> s == Step(store, Invalid, None)
    // the lookup raising escapes the view before anything is written or sent
    ensures req.serializerValid && req.faults.lookupError.Some? ==>
      s == Step(store, ServerError(req.faults.lookupError.value), None)
    ensures s.response.Invalid? <==> !req.serializerValid
    // the rate-limited answer is exactly the recorded rejection of a limited request
    ensures s.response == RateLimited <==>
      && Admitted(req)
      && IsRateLimited(lastTx, req.clock.checkedAt, settings.fundingCooldown)
      && req.faults.failureWriteError.None?
    ensures s.response == RateLimited ==> s.broadcast.None? && AppendsRejection(store, s.store, req)
    // the chain is reached exactly by an admitted, non-limited request, and
    // what went out is the hash the chain returned
    ensures s.broadcast.Some? <==>
      Admitted(req) && !IsRateLimited(lastTx, req.clock.checkedAt, settings.fundingCooldown) && req.chain.Sent?
    ensures s.broadcast.Some? ==> req.chain == Sent(s.broadcast.value)
    // funded exactly when an admitted, non-limited payout was sent and recorded
    ensures s.response.Funded? <==>
      Admitted(req) && !IsRateLimited(lastTx, req.clock.checkedAt, settings.fundingCooldown) && PaidAndRecorded(req)
    ensures s.response.Funded? ==>
      && s.response.transactionId == req.chain.hash
      && s.broadcast == Some(s.response.transactionId)
      && AppendsPayout(store, s.store, settings, req, s.response.transactionId)
    // any exception while paying out is answered 400 with its message, as
    // long as the failure record can be written
    ensures s.response.FundingFailed? <==>
      && Admitted(req) && !IsRateLimited(lastTx, req.clock.checkedAt, settings.fundingCooldown)
      && !PaidAndRecorded(req) && req.faults.failureWriteError.None?
    ensures s.response.FundingFailed? ==>
      s.response.error == FailurePrefix + CaughtMessage(req) && AppendsRejection(store, s.store, req)
    // an escaping exception carries the message of the store call that raised
    ensures s.response.ServerError? ==>
      s.response.message == if req.faults.lookupError.Some? then req.faults.lookupError.value else req.faults.failureWriteError.value
    // exactly one record per request past validation, unless an exception escapes
    ensures s.response.Invalid? || s.response.ServerError? ==> s.store == store
    ensures !s.response.Invalid? && !s.response.ServerError? ==> GrowsByOne(store, s.store)
    // the record tells the truth about the answer
    ensures |s.store| > |store| ==> (s.store[|store|].status == Success <==> s.response.Funded?)
    ensures settings.giveawayValue > 0 ==> forall i :: |store| <= i < |s.store| ==> WellFormed(s.store[i])
  {
    if !req.serializerValid then Step(store, Invalid, None)
    else if req.faults.lookupError.Some? then Step(store, ServerError(req.faults.lookupError.value), None)
    else if IsRateLimited(lastTx, req.clock.checkedAt, settings.fundingCooldown) then RateLimitExceeded(store, req)
    else ProcessFunding(settings, store, req)
  }

  /** A payout that went out on chain is reported as a failure, and recorded as
      one, when the success record cannot be written. */
  lemma BroadcastPayoutReportedFailed(settings: Settings, store: Store, req: Request, lastTx: Option<Transaction>)
    requires req.serializerValid && req.faults.lookupError.None?
    requires !IsRateLimited(lastTx, req.clock.checkedAt, settings.fundingCooldown)
    requires req.chain.Sent? && req.faults.successWriteError.Some? && req.faults.failureWriteError.None?
    ensures var s := Post(settings, store, req, lastTx);
      && s.broadcast == Some(req.chain.hash)
      && s.response == FundingFailed(FailurePrefix + req.faults.successWriteError.value)
      && StatusCode(s.response) == 400
      && AppendsRejection(store, s.store, req)
  {
  }
}

=== FILE: giveaway.dfy ===
/**
 The giveaway app (app/giveaway/views.py): `FundView.post` with the funding
 flow inlined, looking up the wallet's last successful payout with the
 repository's `get_last_tx`, which keys on the wallet address alone.
 */
module Giveaway {
  import opened Wrappers
  import opened Transactions
  import opened TransactionRepository
  import opened RateLimiter
  import opened Funding

  /** Some successful payout to `wallet` is less than `cooldown` old at `now`. */
  ghost predicate HasRecentSuccess(store: Store, wallet: string, now: int, cooldown: int) {
    exists i :: 0 <= i < |store| && IsSuccessFor(store[i], wallet) && now - store[i].createdAt < cooldown
  }

  /** The giveaway's rate-limit condition, stated over the whole store: limited
      iff any successful payout to the wallet is still within the cooldown.
      Only the most recent success matters, and failures never do. */
  lemma RateLimitedIffRecentSuccess(store: Store, wallet: string, now: int, cooldown: int)
    ensures IsRateLimited(GetLastTx(store, wallet), now, cooldown) <==> HasRecentSuccess(store, wallet, now, cooldown)
  {
    var last := GetLastTx(store, wallet);
    if last.Some? {
      var i :| 0 <= i < |store| && store[i] == last.value;
      assert IsSuccessFor(store[i], wallet);
    }
  }

  /** `FundView.post` of the giveaway. */
  function Fund(settings: Settings, store: Store, req: Request): (s: Step)
    ensures !req.serializerValid ==> s == Step(store, Invalid, None)
    ensures s.response.Invalid? <==> !req.serializerValid
    // an escaping exception leaves the store as it was
    ensures s.response.ServerError? ==> s.store == store
    ensures s.response == RateLimited <==>
      && Admitted(req) && req.faults.failureWriteError.None?
      && HasRecentSuccess(store, req.walletAddress, req.clock.checkedAt, settings.fundingCooldown)
    // paid out exactly when no success of the wallet is within the cooldown
    // and the chain returned a hash
    ensures s.broadcast.Some? <==>
      && Admitted(req) && req.chain.Sent?
      && !HasRecentSuccess(store, req.walletAddress, req.clock.checkedAt, settings.fundingCooldown)
    ensures s.broadcast.Some? ==> s.broadcast.value == req.chain.hash
    // 200 exactly when that payout was also recorded, with the chain's hash as id
    ensures s.response.Funded? <==>
      && Admitted(req) && PaidAndRecorded(req)
      && !HasRecentSuccess(store, req.walletAddress, req.clock.checkedAt, settings.fundingCooldown)
    ensures s.response.Funded? ==> s.response.transactionId == req.chain.hash
    // any exception while paying out: 400 with its message, and a failure record
    ensures s.response.FundingFailed? <==>
      && Admitted(req) && !PaidAndRecorded(req) && req.faults.failureWriteError.None?
      && !HasRecentSuccess(store, req.walletAddress, req.clock.checkedAt, settings.fundingCooldown)
    ensures s.response.FundingFailed? ==> s.response.error == FailurePrefix + CaughtMessage(req)
    // a payout is broadcast only when every earlier payout to the wallet is at
    // least one cooldown old
    ensures s.broadcast.Some? ==>
      forall i :: 0 <= i < |store| && IsSuccessFor(store[i], req.walletAddress) ==>
        store[i].createdAt + settings.fundingCooldown <= req.clock.checkedAt
    ensures s.response.Funded? ==> AppendsPayout(store, s.store, settings, req, s.response.transactionId)
    ensures s.response == RateLimited || s.response.FundingFailed? ==> AppendsRejection(store, s.store, req)
    ensures s.response == RateLimited ==> s.broadcast.None?
  {
    RateLimitedIffRecentSuccess(store, req.walletAddress, req.clock.checkedAt, settings.fundingCooldown);
    Post(settings, store, req, GetLastTx(store, req.walletAddress))
  }

  /** Right after a payout, a fault-free request for the same wallet within the
      cooldown is rejected with 429, recorded, and sends nothing. */
  lemma RepeatWithinCooldownIsLimited(settings: Settings, store: Store, first: Request, second: Request)
    requires Fund(settings, store, first).response.Funded?
    requires second.walletAddress == first.walletAddress
    requires second.serializerValid && second.faults.lookupError.None? && second.faults.failureWriteError.None?
    requires first.clock.recordedAt <= second.clock.checkedAt < first.clock.recordedAt + settings.fundingCooldown
    ensures var s := Fund(settings, Fund(settings, store, first).store, second);
      s.response == RateLimited && s.broadcast.None?
  {
    var after := Fund(settings, store, first).store;
    assert IsSuccessFor(after[|store|], second.walletAddress);
  }
}

=== FILE: ratelimiter.dfy ===
/**
 The rate-limit decision shared by both apps (`_is_rate_limited` in the faucet,
 the inlined condition in the giveaway): given the record the store lookup
 returned, a request is limited iff that record exists and strictly less than
 the cooldown has elapsed since it was created.
 */
module RateLimiter {
  import opened Wrappers
  import opened Transactions

  /** `_is_rate_limited` given the lookup's answer `lastTx`. */
  function IsRateLimited(lastTx: Option<Transaction>, now: int, cooldown: int): (limited: bool)
    // only a record found can limit a wallet
    ensures limited ==> lastTx.Some?
    // and the wallet is free again from one cooldown after that record on
    ensures lastTx.Some? ==> (limited <==> now < lastTx.value.createdAt + cooldown)
  {
    match lastTx
    case None => false
    case Some(t) => now - t.createdAt < cooldown
  }

  /** A wallet the lookup knows nothing about is never limited, whatever the
      clock and the cooldown. */
  lemma NothingFoundNeverLimited(now: int, cooldown: int)
    ensures !IsRateLimited(None, now, cooldown)
  {
  }

  /** The comparison is strict: exactly one cooldown after the last payout the
      wallet may be funded again, and one second earlier it may not. */
  lemma CooldownBoundary(t: Transaction, cooldown: int)
    ensures !IsRateLimited(Some(t), t.createdAt + cooldown, cooldown)
    ensures IsRateLimited(Some(t), t.createdAt + cooldown - 1, cooldown)
  {
  }

  /** Once a wallet's cooldown has expired it stays expired as the clock
      advances (for the same last record). */
  lemma ExpiryIsPermanent(lastTx: Option<Transaction>, now: int, later: int, cooldown: int)
    requires now <= later
    requires !IsRateLimited(lastTx, now, cooldown)
    ensures !IsRateLimited(lastTx, later, cooldown)
  {
  }

  /** With a positive cooldown, a wallet paid at this very instant is limited. */
  lemma JustPaidIsLimited(t: Transaction, cooldown: int)
    requires cooldown > 0
    ensures IsRateLimited(Some(t), t.createdAt, cooldown)
  {
  }
}

=== FILE: repository.dfy ===
/**
 The transaction repository over an in-memory store: the collection is an
 append-only sequence of records in insertion order. Read failures of the
 database are not raised here; the callers that can see them take them as an
 explicit input.
 */
module TransactionRepository {
  import opened Wrappers
  import opened Transactions

  type Store = seq<Transaction>

  /** One day, in seconds. */
  const OneDay: int := 86400

  /** The query condition of `get_txs_between`: both bounds inclusive, and a
      status condition only when a status is given. */
  predicate Matches(t: Transaction, start: int, end: int, status: Option<Status>) {
    && start <= t.createdAt
    && t.createdAt <= end
    && (status.Some? ==> t.status == status.value)
  }

  /** The positions of the store that the query selects (reference definition
      used for counting). */
  ghost function MatchingIndices(store: Store, start: int, end: int, status: Option<Status>): set<int> {
    set i | 0 <= i < |store| && Matches(store[i], start, end, status)
  }

  /** `get_txs_between`: the records created inside `[start, end]`, optionally
      of one status, in store order. */
  function TxsBetween(store: Store, start: int, end: int, status: Option<Status>): (r: seq<Transaction>)
    ensures forall t :: t in r <==> t in store && Matches(t, start, end, status)
    ensures |r| <= |store|
    decreases |store|
  {
    if |store| == 0 then []
    else
      var n := |store| - 1;
      var earlier := TxsBetween(store[..n], start, end, status);
      assert store == store[..n] + [store[n]];
      if Matches(store[n], start, end, status) then earlier + [store[n]] else earlier
  }

  /** `get_txs_last_24_hours`: the window `[now - 1 day, now]`. */
  function TxsLast24Hours(store: Store, now: int, status: Option<Status>): (r: seq<Transaction>)
    ensures forall t :: t in r <==>
      t in store && now - OneDay <= t.createdAt <= now && (status.Some? ==> t.status == status.value)
  {
    TxsBetween(store, now - OneDay, now, status)
  }

  /** `get_last_tx`: the most recent successful payout to `wallet`, or None.
      Among records with equal timestamps the later-inserted one is returned. */
  function GetLastTx(store: Store, wallet: string): (r: Option<Transaction>)
    ensures r.None? <==> forall t :: t in store ==> !IsSuccessFor(t, wallet)
    ensures r.Some? ==> r.value in store && IsSuccessFor(r.value, wallet)
    ensures r.Some? ==> forall t :: t in store && IsSuccessFor(t, wallet) ==> t.createdAt <= r.value.createdAt
    decreases |store|
  {
    if |store| == 0 then None
    else
      var n := |store| - 1;
      var earlier := GetLastTx(store[..n], wallet);
      assert store == store[..n] + [store[n]];
      if IsSuccessFor(store[n], wallet) && (earlier.None? || earlier.value.createdAt <= store[n].createdAt)
      then Some(store[n])
      else earlier
  }

  /** The outcome of `write`: the grown store, or the database error re-raised. */
  datatype WriteResult = Written(store: Store) | WriteRaised(message: string)

  /** `write`: a single-document insert. `error` is the failure the database
      reports, if any; a failed insert leaves the store as it was. */
  function Write(store: Store, t: Transaction, error: Option<string>): (r: WriteResult)
    ensures r.Written? <==> error.None?
    ensures r.Written? ==> |r.store| == |store| + 1 && r.store[..|store|] == store && r.store[|store|] == t
    ensures r.WriteRaised? ==> r.message == error.value
  {
    match error
    case None => Written(store + [t])
    case Some(e) => WriteRaised(e)
  }

  // ---------------------------------------------------------------------------
  // Properties of the queries

  /** `get_txs_between` on a store grown by one record. */
  lemma TxsBetweenSnoc(store: Store, t: Transaction, start: int, end: int, status: Option<Status>)
    ensures TxsBetween(store + [t], start, end, status)
         == TxsBetween(store, start, end, status) + (if Matches(t, start, end, status) then [t] else [])
  {
    assert (store + [t])[..|store|] == store;
  }

  /** `get_last_tx` on a store grown by one record. */
  lemma GetLastTxSnoc(store: Store, t: Transaction, wallet: string)
    ensures var earlier := GetLastTx(store, wallet);
      GetLastTx(store + [t], wallet)
      == if IsSuccessFor(t, wallet) && (earlier.None? || earlier.value.createdAt <= t.createdAt) then Some(t) else earlier
  {
    assert (store + [t])[..|store|] == store;
  }

  /** Growing the store by one record adds its position to the selected
      positions exactly when the record matches. */
  lemma MatchingIndicesSnoc(store: Store, start: int, end: int, status: Option<Status>)
    requires |store| > 0
    ensures var n := |store| - 1;
      MatchingIndices(store, start, end, status)
      == MatchingIndices(store[..n], start, end, status)
         + (if Matches(store[n], start, end, status) then {n} else {})
  {
    var n := |store| - 1;
    assert forall i :: 0 <= i < n ==> store[..n][i] == store[i];
  }

  /** The number of records a window query returns is the number of store
      positions whose record satisfies the query condition. */
  lemma {:induction false} TxsBetweenCountsMatches(store: Store, start: int, end: int, status: Option<Status>)
    ensures |TxsBetween(store, start, end, status)| == |MatchingIndices(store, start, end, status)|
    decreases |store|
  {
    if |store| == 0 {
      assert MatchingIndices(store, start, end, status) == {};
    } else {
      var n := |store| - 1;
      TxsBetweenCountsMatches(store[..n], start, end, status);
      MatchingIndicesSnoc(store, start, end, status);
      var earlier := MatchingIndices(store[..n], start, end, status);
      assert n !in earlier;
    }
  }

  /** A window query neither loses nor duplicates records: every matching
      record occurs in the result exactly as often as in the store, and no
      other record occurs at all. */
  lemma {:induction false} TxsBetweenMultiplicity(store: Store, start: int, end: int, status: Option<Status>, t: Transaction)
    ensures multiset(TxsBetween(store, start, end, status))[t]
         == if Matches(t, start, end, status) then multiset(store)[t] else 0
    decreases |store|
  {
    if |store| > 0 {
      var n := |store| - 1;
      TxsBetweenMultiplicity(store[..n], start, end, status, t);
      assert store == store[..n] + [store[n]];
      TxsBetweenSnoc(store[..n], store[n], start, end, status);
    }
  }

  /** The status filter splits any window: successes plus failures is
      everything, since the status has exactly two values. */
  lemma {:induction false} WindowPartition(store: Store, start: int, end: int)
    ensures |TxsBetween(store, start, end, Some(Success))| + |TxsBetween(store, start, end, Some(Failed))|
         == |TxsBetween(store, start, end, None)|
    decreases |store|
  {
    if |store| > 0 {
      WindowPartition(store[..|store| - 1], start, end);
    }
  }

  /** Filtering by status is the same as filtering the unfiltered window. */
  lemma {:induction false} StatusFilterRefines(store: Store, start: int, end: int, status: Status)
    ensures TxsBetween(store, start, end, Some(status))
         == TxsBetween(TxsBetween(store, start, end, None), start, end, Some(status))
    decreases |store|
  {
    if |store| > 0 {
      var n := |store| - 1;
      var p := store[..n];
      assert store == p + [store[n]];
      StatusFilterRefines(p, start, end, status);
      TxsBetweenSnoc(p, store[n], start, end, Some(status));
      TxsBetweenSnoc(p, store[n], start, end, None);
      var all := TxsBetween(p, start, end, None);
      if Matches(store[n], start, end, None) {
        TxsBetweenSnoc(all, store[n], start, end, Some(status));
      }
    }
  }

  /** A record appended after a window query does not change it if the record
      falls outside the window: the result depends only on matching records. */
  lemma AppendOutsideWindow(store: Store, t: Transaction, start: int, end: int, status: Option<Status>)
    requires !Matches(t, start, end, status)
    ensures TxsBetween(store + [t], start, end, status) == TxsBetween(store, start, end, status)
  {
    assert (store + [t])[..|store|] == store;
  }

  /** Failed records never influence `get_last_tx`: appending any sequence of
      failures (such as rate-limit rejections) leaves the answer unchanged, so
      they neither extend nor reset a wallet's cooldown. */
  lemma {:induction false} FailuresDoNotMoveLastTx(store: Store, failures: seq<Transaction>, wallet: string)
    requires forall i :: 0 <= i < |failures| ==> failures[i].status == Failed
    ensures GetLastTx(store + failures, wallet) == GetLastTx(store, wallet)
    decreases |failures|
  {
    if |failures| == 0 {
      assert store + failures == store;
    } else {
      var n := |failures| - 1;
      FailuresDoNotMoveLastTx(store, failures[..n], wallet);
      assert store + failures == (store + failures[..n]) + [failures[n]];
      GetLastTxSnoc(store + failures[..n], failures[n], wallet);
    }
  }
}

=== FILE: scenarios.dfy ===
/**
 Concrete request sequences for the giveaway with a one-hour cooldown and a payout of one
 unit, including one showing that a broadcast payout whose success record
 could not be written does not arm the cooldown.
 */
module Scenarios {
  import opened Wrappers
  import opened Transactions
  import opened TransactionRepository
  import opened Funding
  import Giveaway
  import Stats

  const Hour: int := 3600
  const Config: Settings := Settings(Hour, 1)
  const NoFaults: StoreFaults := StoreFaults(None, None, None)
  const Wallet: string := "0xAAA"
  const Ip: string := "10.0.0.1"

  function At(now: int, chain: ChainOutcome, faults: StoreFaults): Request {
    Request(Wallet, Ip, true, Clock(now, now), chain, faults)
  }

  /** The log after the first payout to `Wallet` at time 0. */
  const AfterPayout: Store := [Transaction(Wallet, Some("0xdeadbeef"), 1, Success, Ip, 0)]

  /** A fresh wallet is funded with the hash the chain returned, and exactly
      that success is recorded. */
  lemma FreshWalletFunded()
    ensures var s := Giveaway.Fund(Config, [], At(0, Sent("0xdeadbeef"), NoFaults));
      s.response == Funded("0xdeadbeef") && s.store == AfterPayout
  {
  }

  /** One second after the payout the same wallet is rejected without a chain
      call, and the rejection is recorded. */
  lemma RepeatOneSecondLaterLimited()
    ensures var s := Giveaway.Fund(Config, AfterPayout, At(1, Sent("0xbeef"), NoFaults));
      && s.response == RateLimited
      && s.broadcast == None
      && s.store == AfterPayout + [Transaction(Wallet, None, 0, Failed, Ip, 1)]
  {
    assert IsSuccessFor(AfterPayout[0], Wallet);
  }

  /** A raising chain client, once the cooldown is over, yields a 400 with the
      message and a recorded failure. */
  lemma ChainErrorRecorded()
    ensures var s := Giveaway.Fund(Config, AfterPayout, At(Hour, Raised("connection reset"), NoFaults));
      && s.response == FundingFailed(FailurePrefix + "connection reset")
      && s.broadcast == None
      && s.store == AfterPayout + [Transaction(Wallet, None, 0, Failed, Ip, Hour)]
  {
  }

  /** A payout goes out, its success record fails to be written, so it is
      recorded as a failure; one second later a second payout to the same
      wallet goes out and is recorded as a success. Two payouts reach the
      wallet within the cooldown, although the log shows only one. */
  lemma LostSuccessRecordAllowsSecondPayout()
    ensures var first := Giveaway.Fund(Config, [], At(0, Sent("0x01"), StoreFaults(None, Some("write timeout"), None)));
      && first.broadcast == Some("0x01")
      && first.response == FundingFailed(FailurePrefix + "write timeout")
      && var second := Giveaway.Fund(Config, first.store, At(1, Sent("0x02"), NoFaults));
      && second.broadcast == Some("0x02")
      && second.response == Funded("0x02")
  {
    var first := Giveaway.Fund(Config, [], At(0, Sent("0x01"), StoreFaults(None, Some("write timeout"), None)));
    assert !IsSuccessFor(first.store[0], Wallet);
  }

  function Rec(status: Status, at: int): Transaction {
    Transaction(Wallet, if status == Success then Some("0x01") else None, if status == Success then 1 else 0, status, Ip, at)
  }

  const Now: int := 100 * Hour

  const Mixed: Store := [
    Rec(Success, Now - 25 * Hour), Rec(Success, Now - 3), Rec(Failed, Now - 2),
    Rec(Success, Now - 1), Rec(Failed, Now - OneDay), Rec(Success, Now)]

  /** Three successes and two failures in the last day (one exactly a day
      old, one at the very instant of the query), plus a success 25 hours
      old: the stats report 3 and 2. */
  lemma StatsIgnoreOlderThanADay()
    ensures Stats.Get(Mixed, Now, Now, None) == Stats.Counts(3, 2)
  {
    var start := Now - OneDay;
    assert Mixed[..0] == [];
    assert Mixed[..1][..0] == [];
    assert Mixed[..2][..1] == Mixed[..1];
    assert Mixed[..3][..2] == Mixed[..2];
    assert Mixed[..4][..3] == Mixed[..3];
    assert Mixed[..5][..4] == Mixed[..4];
    assert Mixed[..5] == Mixed[..|Mixed| - 1];
    assert |TxsBetween(Mixed[..1], start, Now, Some(Success))| == 0;
    assert |TxsBetween(Mixed[..2], start, Now, Some(Success))| == 1;
    assert |TxsBetween(Mixed[..3], start, Now, Some(Success))| == 1;
    assert |TxsBetween(Mixed[..4], start, Now, Some(Success))| == 2;
    assert |TxsBetween(Mixed[..5], start, Now, Some(Success))| == 2;
    assert |TxsBetween(Mixed, start, Now, Some(Success))| == 3;
    assert |TxsBetween(Mixed[..1], start, Now, Some(Failed))| == 0;
    assert |TxsBetween(Mixed[..2], start, Now, Some(Failed))| == 0;
    assert |TxsBetween(Mixed[..3], start, Now, Some(Failed))| == 1;
    assert |TxsBetween(Mixed[..4], start, Now, Some(Failed))| == 1;
    assert |TxsBetween(Mixed[..5], start, Now, Some(Failed))| == 2;
    assert |TxsBetween(Mixed, start, Now, Some(Failed))| == 2;
  }
}

=== FILE: stats.dfy ===
/**
 `StatsView.get` (identical in both apps): the number of successful and failed
 attempts in the trailing day. The two counts come from two separate queries,
 each taking its own `datetime.now()` reading, so each has its own `now`.
 */
module Stats {
  import opened Wrappers
  import opened Transactions
  import opened TransactionRepository

  datatype StatsResponse = Counts(numSuccess: nat, numFailed: nat) | StatsError(error: string)

  const StatsErrorPrefix: string := "Unable to fetch stats: "

  /** The HTTP status the view answers with. */
  function StatusCode(r: StatsResponse): int {
    if r.Counts? then 200 else 500
  }

  /** The number of records of `status` created in `[now - 1 day, now]`,
      counted over store positions. */
  ghost function CountInLastDay(store: Store, now: int, status: Status): nat {
    |MatchingIndices(store, now - OneDay, now, Some(status))|
  }

  /** `StatsView.get`. `readError` is the exception either query raised. */
  function Get(store: Store, successNow: int, failedNow: int, readError: Option<string>): (r: StatsResponse)
    ensures r.StatsError? <==> readError.Some?
    // 200 with the counts, or 500 exactly when a query raised
    ensures StatusCode(r) == (if readError.None? then 200 else 500)
    ensures r.StatsError? ==> r.error == StatsErrorPrefix + readError.value
    ensures r.Counts? ==> r.numSuccess == CountInLastDay(store, successNow, Success)
    ensures r.Counts? ==> r.numFailed == CountInLastDay(store, failedNow, Failed)
  {
    match readError
    case Some(e) => StatsError(StatsErrorPrefix + e)
    case None =>
      TxsBetweenCountsMatches(store, successNow - OneDay, successNow, Some(Success));
      TxsBetweenCountsMatches(store, failedNow - OneDay, failedNow, Some(Failed));
      Counts(|TxsLast24Hours(store, successNow, Some(Success))|, |TxsLast24Hours(store, failedNow, Some(Failed))|)
  }

  /** When both queries read the same clock, the two counts add up to every
      attempt of the trailing day. */
  lemma CountsCoverTheDay(store: Store, now: int)
    ensures Get(store, now, now, None) == Counts(
      |TxsLast24Hours(store, now, Some(Success))|, |TxsLast24Hours(store, now, Some(Failed))|)
    ensures Get(store, now, now, None).numSuccess + Get(store, now, now, None).numFailed
         == |TxsLast24Hours(store, now, None)|
  {
    WindowPartition(store, now - OneDay, now);
  }

  /** An attempt recorded after the stats were read, or more than a day before,
      does not change the counts. */
  lemma CountsIgnoreOutsideWindow(store: Store, t: Transaction, now: int)
    requires t.createdAt < now - OneDay || now < t.createdAt
    ensures Get(store + [t], now, now, None) == Get(store, now, now, None)
  {
    AppendOutsideWindow(store, t, now - OneDay, now, Some(Success));
    AppendOutsideWindow(store, t, now - OneDay, now, Some(Failed));
  }
}

=== FILE: transaction.dfy ===
/**
 The persisted audit record of one funding attempt (the `Transaction` document
 of app/giveaway/data/models/transaction.py; the faucet's model is identical).

 Timestamps are whole seconds; the amount is an abstract integer quantity of the
 payout currency (the source stores a float).
 */
module Transactions {
  import opened Wrappers

  /** The closed two-valued status enum. */
  datatype Status = Success | Failed

  datatype Transaction = Transaction(
    walletAddress: string,
    transactionId: Option<string>,
    amount: int,
    status: Status,
    ipAddress: string,
    createdAt: int
  )

  /** The record invariant the funding code keeps: an on-chain id is present
      exactly for successes, and only successes carry a (positive) amount. */
  predicate WellFormed(t: Transaction) {
    && (t.transactionId.Some? <==> t.status == Success)
    && (t.amount > 0 <==> t.status == Success)
    && t.amount >= 0
  }

  /** A successful payout to `wallet`: what the cooldown looks at. */
  predicate IsSuccessFor(t: Transaction, wallet: string) {
    t.walletAddress == wallet && t.status == Success
  }
}

=== FILE: wrappers.dfy ===
/** Optional values, standing in for Python's `Optional[...]` / `None`. */
module Wrappers {

  datatype Option<+T> = None | Some(value: T)
}
